=== FILE: README.md ===
# mcp-notion-server: a Dafny model of its request logic

The server exposes a handful of Notion operations (create a database, create,
update and read a page, append and delete blocks, list databases) as tools of
the Model Context Protocol. Almost everything it does is forwarding to the
Notion client. This project models the three parts that hold logic of their
own, and proves what they promise:

- the **line-to-paragraph converter** `parseMarkdownToBlocks`
  (`src/utils/markdown.ts`, duplicated inline in `src/index.ts`). It splits
  on line feeds, drops the lines whose `trim()` is empty, and turns every
  other line, untrimmed, into a paragraph block with one text run. The
  module is `Markdown`.
- the **request shaping** of the handlers (`src/handlers/page-handlers.ts`,
  `src/handlers/index.ts` and the inline cases of `src/index.ts`):
  - the parent reference chosen on the literal `"database"`;
  - the precedence between `properties`, a title property built from
    `title`, and `{}`, with JavaScript truthiness;
  - children from `content`;
  - the forwarding of ids, properties and blocks.

  The modules are `Requests` and `Handlers`. The two copies of each handler
  share one model.
- the **tool dispatcher** of `src/index.ts`. It matches the tool name
  exactly and makes one remote call per tool. It wraps every exception as
  `"Operation failed: " + message`, or the generic unknown-error message for
  a thrown value that is not an `Error`. An unknown name throws
  `"Unknown tool"` inside the same `try`, so that error is wrapped too. The
  module `Server` also holds the advertised tool catalog.

Modelling choices:

- The Notion client is a parameter `remote: Request -> Outcome`. An outcome
  is a reply with its `id` and body, a thrown `Error` with its message, or a
  thrown non-`Error`.
- `JSON.stringify(_, null, 2)` is a parameter `stringify: Value -> string`.
- JavaScript values are the datatype `JsValues.Value`. Objects are maps, so
  key order is not represented.
- Tool arguments are read the way the source reads them: through a type
  cast, with no validation. A property the caller left out is `None` in the
  argument records. It reaches the client as `undefined` (`Undefined`), and
  it prints as `"undefined"` inside a template literal.
- Every call is modelled on its own, in sequence. No state is shared between
  calls.

Some behaviours of the code are easy to misread, so the model states them:

- `src/index.ts` has no `get_page` case. A call by that name fails with
  `"Operation failed: Unknown tool"` (`Server.GetPageIsUnknownTool`).
  `handleGetPage` is still modelled (`Handlers.GetPage`).
- The unknown-tool error reads the same as a remote `Error("Unknown tool")`
  after wrapping. A thrown non-`Error` reads the same as an `Error` that
  carries the generic phrase (`Server.EnvelopeAmbiguities`).
- With no `properties` supplied, an empty `title`, like a missing one,
  gives the properties `{}`, because the code tests the title for truthiness (`Requests.PageProperties`,
  `Requests.EmptyTitleIsNoTitle`).
- `Server.Catalog` is the six-tool list of `src/index.ts:114-229`.

## Model

| member | source | states |
|---|---|---|
| `Markdown.Trim` | src/utils/markdown.ts:3 | `line.trim()` is empty exactly when every character of the line is ECMAScript whitespace or a line terminator; otherwise it starts and ends with a non-whitespace character |
| `Markdown.IsWhitespace` | src/utils/markdown.ts:3 | the characters `trim()` removes include space, tab, LF and CR, exclude every printable ASCII character, and all lie in the Basic Multilingual Plane |
| `Markdown.TrimStart` | src/utils/markdown.ts:3 | leading whitespace removal leaves a suffix of the line, and everything cut off is whitespace |
| `Markdown.TrimEnd` | src/utils/markdown.ts:3 | trailing whitespace removal leaves a prefix of the line, and everything cut off is whitespace |
| `Markdown.KeepLineIsTrimTruthy` | src/utils/markdown.ts:3 | the filter keeps a line exactly when its trimmed form is a truthy string |
| `Markdown.Split` | src/utils/markdown.ts:2 | `split('\n')` always yields at least one piece, and no piece contains a line feed |
| `Markdown.JoinSplit` | src/utils/markdown.ts:2 | joining the pieces with line feeds gives the original text back |
| `Markdown.SplitJoin` | src/utils/markdown.ts:2 | pieces without line feeds are recovered exactly by splitting their join |
| `Markdown.SplitCount` | src/utils/markdown.ts:2 | there is one piece more than the text has line feeds |
| `Markdown.SplitSingleLine` | src/utils/markdown.ts:2 | a text without a line feed splits into itself alone |
| `Markdown.SplitAppend` | src/utils/markdown.ts:2 | splitting `a + "\n" + b` gives the pieces of `a` followed by the pieces of `b` |
| `Markdown.SplitBlank` | src/utils/markdown.ts:2-3 | every piece of a whitespace-only text is blank |
| `Markdown.NonBlankLines` | src/utils/markdown.ts:3 | the filter never yields more lines than it is given |
| `Markdown.NonBlankLinesKeep` | src/utils/markdown.ts:3 | every kept line is a non-blank input line, and every non-blank input line is kept |
| `Markdown.NonBlankAppend` | src/utils/markdown.ts:3 | filtering distributes over concatenation, so kept lines stay in their original order |
| `Markdown.NonBlankOfBlank` | src/utils/markdown.ts:3 | a list of blank lines filters to nothing |
| `Markdown.ParagraphBlockHolds` | src/utils/markdown.ts:4-13 | a built block is `object: 'block'`, `type: 'paragraph'`, with exactly one rich-text run of type `'text'` whose content is the line; different lines give different blocks |
| `Markdown.Paragraphs` | src/utils/markdown.ts:4 | the map yields exactly one block per kept line |
| `Markdown.ParagraphsAreTextParagraphs` | src/utils/markdown.ts:4-13 | every block the map builds is a text paragraph |
| `Markdown.ParseMarkdownToBlocks` | src/utils/markdown.ts:1-14 | every block returned is a paragraph with one text run, and there are never more blocks than lines of the split |
| `Markdown.ParseLines` | src/utils/markdown.ts:1-14 | the output has exactly one paragraph per non-blank line of the split, in order. Each paragraph holds its line untrimmed, and that line is not blank and has no line feed |
| `Markdown.ParseBound` | src/utils/markdown.ts:2 | there are at most as many blocks as line feeds plus one |
| `Markdown.ParseConcat` | src/utils/markdown.ts:2-4 | `parse(a + "\n" + b) == parse(a) + parse(b)` |
| `Markdown.ParseSingleLine` | src/utils/markdown.ts:2-13 | a text without line feeds gives its own paragraph, or nothing when blank |
| `Markdown.ParseFirstLine` | src/utils/markdown.ts:2-4 | the first line's blocks come ahead of the blocks of the rest |
| `Markdown.ParseStep` | src/utils/markdown.ts:2-4 | the line that ends at a line feed contributes its blocks ahead of those of the text after it |
| `Markdown.ParseBlank` | src/utils/markdown.ts:2-3 | the empty text and every whitespace-only text give no blocks |
| `Markdown.ParseDropsBlankLines` | src/index.ts:384-396 | a text shaped like `"Hello\n\nWorld  \n   \n"` gives exactly the two paragraphs `"Hello"` and `"World  "`: blank lines are dropped and trailing spaces are kept |
| `Markdown.ParseKeepsCarriageReturn` | src/utils/markdown.ts:10 | with CRLF line endings the `'\r'` stays at the end of the block's text |
| `Markdown.ScanLineFeed` | src/utils/markdown.ts:2-4 | closing a line at a line feed preserves the scan invariant |
| `Markdown.ScanEnd` | src/utils/markdown.ts:2-4 | the last line completes the blocks at the end of the text |
| `Markdown.ConvertMarkdown` | src/utils/markdown.ts:1-14 | a single left-to-right scan gives the same blocks as split, filter and map |
| `JsValues.AsString` | src/types/notion.ts:12-34 | reading back a forwarded string or missing property inverts the conversion that sent it |
| `JsValues.AsObject` | src/types/notion.ts:12-34 | reading back a forwarded object or missing property inverts the conversion that sent it |
| `JsValues.AsArray` | src/types/notion.ts:31-34 | reading back a forwarded array or missing property inverts the conversion that sent it |
| `JsValues.CarriesExactly` | src/index.ts:257-269 | a value that carries an optional string, object or array argument is exactly the argument itself, or `undefined` when the argument is missing |
| `JsValues.TruthyOfArguments` | src/handlers/page-handlers.ts:20-29 | the truthiness tests read a string argument as present and non-empty, and an object or array argument as present, the empty `{}` included |
| `JsValues.InterpolateMissing` | src/handlers/index.ts:105-116 | `${x}` prints a present argument as itself and a missing one exactly like the string `"undefined"` |
| `Requests.ListDatabasesRequest` | src/index.ts:242-247 | list_databases searches with the body `{ filter: { property: 'object', value: 'database' } }` and no other key |
| `Requests.CreateDatabaseRequest` | src/handlers/index.ts:33-41 | the parent is always `{ page_id: parent_id }` and nothing else. The title is exactly one run `{ type: "text", text: { content: title } }` with no other key. `properties` are forwarded unchanged. A missing argument is sent as `undefined` |
| `Requests.PageParent` | src/handlers/page-handlers.ts:16-18 | a database reference exactly when `parent_type` is the literal `"database"`, a page reference for every other value, the id forwarded either way, as `undefined` when missing |
| `Requests.PageProperties` | src/handlers/page-handlers.ts:20-24 | supplied properties are sent verbatim. Otherwise a non-empty title gives the single title property. Otherwise, including an empty title, `{}` is sent |
| `Requests.PageChildren` | src/handlers/page-handlers.ts:29 | the children are the converter's output for the content, a missing or empty content giving none |
| `Requests.CreatePageRequest` | src/index.ts:290-304 | the page create carries a one-key parent, `database_id` exactly for parent type `"database"` and a `page_id` reference for every other value, with the id or `undefined`. The properties follow the properties, then non-empty title, then `{}` precedence. The children are the converter's blocks for the content |
| `Requests.UpdatePageRequest` | src/handlers/page-handlers.ts:40-44 | page id and properties are forwarded unchanged, each as `undefined` when missing |
| `Requests.GetPageRequest` | src/handlers/page-handlers.ts:54-57 | the page id is forwarded unchanged, as `undefined` when missing |
| `Requests.AppendBlocksRequest` | src/handlers/index.ts:96-100 | the block appended to is `page_id`, and the blocks are forwarded unchanged, each as `undefined` when missing |
| `Requests.DeleteBlockRequest` | src/handlers/index.ts:110-111 | exactly the block id is sent, as `undefined` when missing |
| `Requests.TitleIgnoredWithProperties` | src/index.ts:294 | with properties supplied, the title has no effect on the request |
| `Requests.EmptyTitleIsNoTitle` | src/index.ts:294-298 | an empty title gives the same request as no title |
| `Requests.BlankContentGivesNoChildren` | src/index.ts:303 | a missing, empty or whitespace-only content gives no children |
| `Requests.CreatePageWithTitleOnly` | src/index.ts:281-304 | a page parent with only a title gives a page reference, the single title property, and no children |
| `Handlers.ListDatabases` | src/handlers/index.ts:17-31 | success exactly when the search succeeds, answering the serialized `results`; a failure is passed on unchanged |
| `Handlers.Settle` | src/handlers/page-handlers.ts:26-37 | an awaited call succeeds exactly when the remote call does, with one text item; its exception is passed on unchanged |
| `Handlers.CreateDatabase` | src/handlers/index.ts:33-49 | success exactly when the remote create succeeds, with text `"Created database: " + id`; a failure is passed on unchanged |
| `Handlers.CreatePage` | src/handlers/page-handlers.ts:9-38 | success exactly when the remote create succeeds, with text `"Created page: " + id`; a failure is passed on unchanged |
| `Handlers.UpdatePage` | src/handlers/page-handlers.ts:40-52 | success exactly when the remote update succeeds, with text `"Updated page: " + id`; a failure is passed on unchanged |
| `Handlers.GetPage` | src/handlers/page-handlers.ts:54-65 | success exactly when the retrieval succeeds, answering the serialized page; a failure is passed on unchanged |
| `Handlers.AppendBlocks` | src/handlers/index.ts:96-108 | success exactly when the append succeeds, with text `"Appended blocks to page: " + page_id` taken from the arguments |
| `Handlers.DeleteBlock` | src/handlers/index.ts:110-119 | success exactly when the delete succeeds, with text `"Deleted block: " + block_id` |
| `Server.ParseTool` | src/index.ts:239 | a name is recognised only when it is exactly one of the six tool names |
| `Server.ParseToolName` | src/index.ts:239-353 | every tool is recognised by its own name |
| `Server.RequestFor` | src/index.ts:241-360 | each case calls a different client method, recovered by `CallerOf`, and no case calls `pages.retrieve` |
| `Server.Handle` | src/index.ts:239-369 | a case succeeds exactly when the call `RequestFor` names succeeds, answering one text item, and otherwise lets that call's exception through |
| `Server.WrapError` | src/index.ts:373-378 | every wrapped error starts with `"Operation failed: "`, followed by the `Error`'s message or by the generic unknown-error phrase |
| `Server.Dispatch` | src/index.ts:237-379 | an unknown name gives `"Operation failed: Unknown tool"`. A known name succeeds exactly when its one remote call does. Remote message `m` gives `"Operation failed: " + m`, and a non-`Error` gives the generic message. Every error has the prefix, and every success is a single text item |
| `Server.UnknownToolMakesNoCall` | src/index.ts:370-371 | for an unknown name the result does not depend on the arguments or on the client |
| `Server.DispatchDependsOnlyOnItsRequest` | src/index.ts:239-353 | a known tool's result depends on the client only through the one request it shapes |
| `Server.DispatchListDatabases` | src/index.ts:241-254 | list_databases answers the serialized search results |
| `Server.DispatchCreateDatabase` | src/index.ts:256-278 | create_database answers `"Created database: " + id` |
| `Server.DispatchCreatePage` | src/index.ts:281-312 | create_page answers `"Created page: " + id` |
| `Server.DispatchUpdatePage` | src/index.ts:314-331 | update_page answers `"Updated page: " + id` |
| `Server.DispatchAppendBlocks` | src/index.ts:334-351 | append_blocks sends `block_id = page_id` with the blocks unchanged, even an empty list, and answers `"Appended blocks to page: " + page_id` |
| `Server.DispatchDeleteBlocks` | src/index.ts:353-368 | delete_blocks sends exactly the block id and answers `"Deleted block: " + block_id` |
| `Server.GetPageIsUnknownTool` | src/index.ts:370-375 | `get_page` has no case, so it gives `"Operation failed: Unknown tool"` |
| `Server.EnvelopeAmbiguities` | src/index.ts:371-377 | the unknown-tool error equals a wrapped remote `"Unknown tool"` message, and a non-`Error` equals an `Error` carrying the generic phrase |
| `Server.CatalogNamesDistinct` | src/index.ts:114-229 | no two advertised tools share a name |
| `Server.CatalogMatchesDispatch` | src/index.ts:114-229 | every advertised name has a dispatch case, and every case is advertised |
| `Server.CatalogRequiredDeclared` | src/index.ts:114-229 | every required property of a tool is one its schema declares |

## Left out

- The Notion SDK, the MCP `Server` and its stdio transport, `dotenv`, and the
  startup check for `NOTION_API_KEY`. These are external I/O and library
  plumbing. The client is only the `remote` parameter.
- `JSON.stringify` of replies: remote objects are opaque, so serialization is
  the `stringify` parameter.
- The demo notes resources and the `summarize_notes` prompt in
  `src/index.ts`. They are a static lookup table plus URL parsing by the
  runtime.
- `src/handlers/database-handlers.ts`, `notion-handlers.ts`,
  `search-handlers.ts` and `block-handlers.ts`. They only forward fields,
  and their `handleCreateDatabase` and `handleAppendBlocks` match the
  modelled ones. `handleGetDatabase`, `handleQueryDatabase`, `handleSearch`
  and `handleGetBlocks` have no dispatch case.
- Asynchrony and concurrency. Calls share no mutable state, so each is
  modelled on its own.
- Argument values of a type other than the one the cast names are not
  modelled. One example is a numeric `content`, which would make `split`
  throw a `TypeError`. A call without an `arguments` object is not modelled
  either; destructuring it would throw.
- `Handlers.CreateDatabase`: the reply's `id` is taken to be a string. It
  is the `id` field of `Outcome.Ok`, which is independent of `Get(body, "id")`.
  The model does not relate the two.
- `Handlers.CreatePage`: the same assumption about the reply's `id` as
  `Handlers.CreateDatabase`.
- `Handlers.UpdatePage`: the same assumption about the reply's `id` as
  `Handlers.CreateDatabase`.
- `Handlers.ListDatabases`: `results` is read from the reply body with
  `JsValues.Get`, so a missing property is handed to `stringify` as
  `Undefined`. `JSON.stringify(undefined, null, 2)` returns the value
  `undefined`, not a string, so the source then answers `text: undefined`.
  The model's `stringify(Undefined)` is a string that stands for that
  non-string value. The shape of the reply is not checked.
- JavaScript numbers are integers here, so `NaN` and `-0` are not part of
  `JsValues.Truthy`.
- Strings are sequences of Unicode scalar values rather than UTF-16 code
  units, so lone surrogates cannot be represented. All whitespace characters
  that `trim` removes are in the Basic Multilingual Plane.

=== FILE: handlers.dfy ===
/** The operation handlers: each shapes one request, makes the one remote
    call, and turns the reply into a text response. A failure of the remote
    call is passed on unchanged. The remote client is a parameter: a
    function from request to outcome. */
module Handlers {
  import opened Wrappers
  import opened JsValues
  import opened Requests

  /** What a remote call gives back: a response object whose `id` field is
      `id`, or a thrown `Error` with its message, or a thrown value that is
      not an `Error`. */
  datatype Outcome = Ok(id: string, body: Value) | ErrMsg(message: string) | NonError

  /** One content item of a tool response, `{ type, text }`. */
  datatype Content = Content(kind: string, text: string)

  /** A tool response, `{ content: [...] }`. */
  datatype Response = Response(content: seq<Content>)

  /** What a handler throws: an `Error` with a message, or any other value. */
  datatype Thrown = Error(message: string) | NonErrorValue

  /** The response every operation returns on success: one text item. */
  function TextResponse(text: string): Response {
    Response([Content("text", text)])
  }

  /** The exception a failed remote call raises in the handler. */
  function Rejection(o: Outcome): Thrown
    requires !o.Ok?
  {
    if o.ErrMsg? then Error(o.message) else NonErrorValue
  }

  /** Await a remote call: on success the text `describe` builds from the
      reply, otherwise the call's exception, unchanged. */
  function Settle(o: Outcome, describe: (string, Value) -> string): (r: Result<Response, Thrown>)
    ensures r.Success? <==> o.Ok?
    ensures o.Ok? ==> r.value == TextResponse(describe(o.id, o.body))
    ensures !o.Ok? ==> r.error == Rejection(o)
  {
    match o
    case Ok(id, body) => Success(TextResponse(describe(id, body)))
    case _ => Failure(Rejection(o))
  }

  /** handleListDatabases: the serialized `results` of the database search.
      `stringify` stands for `JSON.stringify(_, null, 2)`. */
  function ListDatabases(remote: Request -> Outcome, stringify: Value -> string): (r: Result<Response, Thrown>)
    ensures var o := remote(ListDatabasesRequest());
      && (r.Success? <==> o.Ok?)
      && (o.Ok? ==> r.value == TextResponse(stringify(Get(o.body, "results"))))
      && (!o.Ok? ==> r.error == Rejection(o))
  {
    Settle(remote(ListDatabasesRequest()), (id, body) => stringify(Get(body, "results")))
  }

  /** handleCreateDatabase: "Created database: " and the new database's id. */
  function CreateDatabase(a: CreateDatabaseArgs, remote: Request -> Outcome): (r: Result<Response, Thrown>)
    ensures var o := remote(CreateDatabaseRequest(a));
      && (r.Success? <==> o.Ok?)
      && (o.Ok? ==> r.value == TextResponse("Created database: " + o.id))
      && (!o.Ok? ==> r.error == Rejection(o))
  {
    Settle(remote(CreateDatabaseRequest(a)), (id, body) => "Created database: " + id)
  }

  /** handleCreatePage: "Created page: " and the new page's id. */
  function CreatePage(a: CreatePageArgs, remote: Request -> Outcome): (r: Result<Response, Thrown>)
    ensures var o := remote(CreatePageRequest(a));
      && (r.Success? <==> o.Ok?)
      && (o.Ok? ==> r.value == TextResponse("Created page: " + o.id))
      && (!o.Ok? ==> r.error == Rejection(o))
  {
    Settle(remote(CreatePageRequest(a)), (id, body) => "Created page: " + id)
  }

  /** handleUpdatePage: "Updated page: " and the id the reply carries. */
  function UpdatePage(a: UpdatePageArgs, remote: Request -> Outcome): (r: Result<Response, Thrown>)
    ensures var o := remote(UpdatePageRequest(a));
      && (r.Success? <==> o.Ok?)
      && (o.Ok? ==> r.value == TextResponse("Updated page: " + o.id))
      && (!o.Ok? ==> r.error == Rejection(o))
  {
    Settle(remote(UpdatePageRequest(a)), (id, body) => "Updated page: " + id)
  }

  /** handleGetPage: the serialized page object. */
  function GetPage(pageId: Option<string>, remote: Request -> Outcome, stringify: Value -> string): (r: Result<Response, Thrown>)
    ensures var o := remote(GetPageRequest(pageId));
      && (r.Success? <==> o.Ok?)
      && (o.Ok? ==> r.value == TextResponse(stringify(o.body)))
      && (!o.Ok? ==> r.error == Rejection(o))
  {
    Settle(remote(GetPageRequest(pageId)), (id, body) => stringify(body))
  }

  /** handleAppendBlocks: the text names the page from the arguments, not
      anything in the reply. */
  function AppendBlocks(a: AppendBlocksArgs, remote: Request -> Outcome): (r: Result<Response, Thrown>)
    ensures var o := remote(AppendBlocksRequest(a));
      && (r.Success? <==> o.Ok?)
      && (o.Ok? ==> r.value == TextResponse("Appended blocks to page: " + Interpolate(a.pageId)))
      && (!o.Ok? ==> r.error == Rejection(o))
  {
    Settle(remote(AppendBlocksRequest(a)), (id, body) => "Appended blocks to page: " + Interpolate(a.pageId))
  }

  /** handleDeleteBlock: the text names the block from the arguments. */
  function DeleteBlock(blockId: Option<string>, remote: Request -> Outcome): (r: Result<Response, Thrown>)
    ensures var o := remote(DeleteBlockRequest(blockId));
      && (r.Success? <==> o.Ok?)
      && (o.Ok? ==> r.value == TextResponse("Deleted block: " + Interpolate(blockId)))
      && (!o.Ok? ==> r.error == Rejection(o))
  {
    Settle(remote(DeleteBlockRequest(blockId)), (id, body) => "Deleted block: " + Interpolate(blockId))
  }
}

=== FILE: js_values.dfy ===
/** The JavaScript values that travel through the server: argument fields,
    property objects, blocks and the bodies handed to the remote client. */
module JsValues {
  import opened Wrappers

  /** A JavaScript value as far as the server looks at it. Numbers are
      integers here; `Undefined` is a property that was never set. */
  datatype Value =
    | Undefined
    | Null
    | Bool(b: bool)
    | Number(n: int)
    | Str(s: string)
    | Arr(items: seq<Value>)
    | Obj(fields: map<string, Value>)

  /** JavaScript truthiness (ToBoolean): `undefined`, `null`, `false`, `0`
      and the empty string are falsy; every array and object is truthy. */
  predicate Truthy(v: Value) {
    match v
    case Undefined => false
    case Null => false
    case Bool(b) => b
    case Number(n) => n != 0
    case Str(s) => s != ""
    case Arr(_) => true
    case Obj(_) => true
  }

  /** How the truthiness tests of the handlers read an argument: a string
      is truthy exactly when present and non-empty, while an object or an
      array is truthy whenever present, the empty `{}` and `[]` included. */
  lemma TruthyOfArguments(s: Option<string>, m: Option<map<string, Value>>, xs: Option<seq<Value>>)
    ensures Truthy(OfString(s)) <==> s.Some? && s.value != ""
    ensures Truthy(OfObject(m)) <==> m.Some?
    ensures Truthy(OfArray(xs)) <==> xs.Some?
  {
  }

  /** `a || b` */
  function Or(a: Value, b: Value): Value {
    if Truthy(a) then a else b
  }

  /** `c ? x : y` */
  function Cond(c: Value, x: Value, y: Value): Value {
    if Truthy(c) then x else y
  }

  /** Property access `v.key`: `undefined` when `v` has no such property. */
  function Get(v: Value, key: string): Value {
    if v.Obj? && key in v.fields then v.fields[key] else Undefined
  }

  /** An optional string argument as the handler sees it after destructuring. */
  function OfString(o: Option<string>): Value {
    match o
    case Some(s) => Str(s)
    case None => Undefined
  }

  /** An optional object argument (`Record<string, any>`). */
  function OfObject(o: Option<map<string, Value>>): Value {
    match o
    case Some(m) => Obj(m)
    case None => Undefined
  }

  /** An optional array argument (`any[]`). */
  function OfArray(o: Option<seq<Value>>): Value {
    match o
    case Some(xs) => Arr(xs)
    case None => Undefined
  }

  /** The optional string a forwarded value carries: the inverse of
      `OfString` on the values it produces. */
  function AsString(v: Value): (o: Option<string>)
    ensures v.Str? || v.Undefined? ==> OfString(o) == v
  {
    if v.Str? then Some(v.s) else None
  }

  /** The optional object a forwarded value carries: the inverse of
      `OfObject` on the values it produces. */
  function AsObject(v: Value): (o: Option<map<string, Value>>)
    ensures v.Obj? || v.Undefined? ==> OfObject(o) == v
  {
    if v.Obj? then Some(v.fields) else None
  }

  /** The optional array a forwarded value carries: the inverse of
      `OfArray` on the values it produces. */
  function AsArray(v: Value): (o: Option<seq<Value>>)
    ensures v.Arr? || v.Undefined? ==> OfArray(o) == v
  {
    if v.Arr? then Some(v.items) else None
  }

  /** `v` is what the source sends for the optional string argument `o`:
      the string itself, or `undefined` when the caller left it out. */
  predicate CarriesString(v: Value, o: Option<string>) {
    (v.Str? || v.Undefined?) && AsString(v) == o
  }

  /** `v` is what the source sends for the optional object argument `o`:
      the object itself, or `undefined` when the caller left it out. */
  predicate CarriesObject(v: Value, o: Option<map<string, Value>>) {
    (v.Obj? || v.Undefined?) && AsObject(v) == o
  }

  /** `v` is what the source sends for the optional array argument `o`:
      the array itself, or `undefined` when the caller left it out. */
  predicate CarriesArray(v: Value, o: Option<seq<Value>>) {
    (v.Arr? || v.Undefined?) && AsArray(v) == o
  }

  /** Each of the three relations pins the value sent: a missing argument
      is sent as `undefined` and as nothing else. */
  lemma CarriesExactly(v: Value, s: Option<string>, m: Option<map<string, Value>>, xs: Option<seq<Value>>)
    ensures CarriesString(v, s) <==> v == OfString(s)
    ensures CarriesObject(v, m) <==> v == OfObject(m)
    ensures CarriesArray(v, xs) <==> v == OfArray(xs)
    ensures s.None? && CarriesString(v, s) ==> v == Undefined
  {
  }

  /** Template-literal interpolation `${x}` of an optional string: a missing
      property prints as "undefined". */
  function Interpolate(o: Option<string>): string {
    match o
    case Some(s) => s
    case None => "undefined"
  }

  /** A present argument prints as itself; a missing one prints exactly like
      the string "undefined", so the two cannot be told apart in the text. */
  lemma InterpolateMissing(s: string)
    ensures Interpolate(Some(s)) == s
    ensures Interpolate(None) == Interpolate(Some("undefined"))
  {
  }
}

=== FILE: markdown.dfy ===
/** The line-to-paragraph converter `parseMarkdownToBlocks`: split the text on
    line feeds, drop every line whose trimmed form is empty, and turn each
    remaining line, untrimmed, into a paragraph block with one text run.
    Nothing inside a line is interpreted. */
module Markdown {
  import opened Wrappers
  import opened JsValues

  /** The characters `String.prototype.trim` removes: ECMAScript WhiteSpace
      (tab, vertical tab, form feed, space, no-break space, byte order mark
      and the other space separators) and LineTerminator (LF, CR, LS, PS). */
  predicate IsWhitespace(c: char): (r: bool)
    ensures c == ' ' || c == '\t' || c == '\n' || c == '\r' ==> r
    ensures '!' <= c <= '~' ==> !r
    ensures r ==> c as int < 0x1_0000
  {
    var n := c as int;
    || n == 0x09 || n == 0x0A || n == 0x0B || n == 0x0C || n == 0x0D
    || n == 0x20 || n == 0xA0 || n == 0x1680
    || (0x2000 <= n <= 0x200A)
    || n == 0x2028 || n == 0x2029 || n == 0x202F || n == 0x205F
    || n == 0x3000 || n == 0xFEFF
  }

  /** A line made of whitespace only (the empty line included). */
  predicate IsBlank(line: string) {
    forall i | 0 <= i < |line| :: IsWhitespace(line[i])
  }

  /** Leading whitespace removed. */
  function TrimStart(s: string): (r: string)
    ensures |r| <= |s| && r == s[|s| - |r|..]
    ensures forall i | 0 <= i < |s| - |r| :: IsWhitespace(s[i])
    ensures r != "" ==> !IsWhitespace(r[0])
  {
    if s != "" && IsWhitespace(s[0]) then TrimStart(s[1..]) else s
  }

  /** Trailing whitespace removed. */
  function TrimEnd(s: string): (r: string)
    ensures |r| <= |s| && r == s[..|r|]
    ensures forall i | |r| <= i < |s| :: IsWhitespace(s[i])
    ensures r != "" ==> !IsWhitespace(r[|r| - 1])
  {
    if s != "" && IsWhitespace(s[|s| - 1]) then TrimEnd(s[..|s| - 1]) else s
  }

  /** `line.trim()`: empty exactly for blank lines; otherwise it starts and
      ends with a character that is not whitespace. */
  function Trim(s: string): (r: string)
    ensures r == "" <==> IsBlank(s)
    ensures r != "" ==> !IsWhitespace(r[0]) && !IsWhitespace(r[|r| - 1])
    ensures |r| <= |s|
  {
    var t := TrimStart(s);
    var r := TrimEnd(t);
    assert r == "" ==> IsBlank(s) by {
      if r == "" {
        forall i | 0 <= i < |s| ensures IsWhitespace(s[i]) {
          if i >= |s| - |t| {
            assert s[i] == t[i - (|s| - |t|)];
          }
        }
      }
    }
    assert IsBlank(s) ==> t == "";
    r
  }

  /** `lines.join('\n')` */
  function Join(lines: seq<string>): string {
    if |lines| == 0 then ""
    else if |lines| == 1 then lines[0]
    else lines[0] + "\n" + Join(lines[1..])
  }

  /** `s.split('\n')`: at least one piece, and no piece holds a line feed. */
  function Split(s: string): (lines: seq<string>)
    ensures |lines| >= 1
    ensures forall i | 0 <= i < |lines| :: '\n' !in lines[i]
  {
    if |s| == 0 then [""]
    else
      var rest := Split(s[1..]);
      if s[0] == '\n' then [""] + rest
      else [[s[0]] + rest[0]] + rest[1..]
  }

  /** Joining the pieces of a split with line feeds gives the text back. */
  lemma {:induction false} JoinSplit(s: string)
    ensures Join(Split(s)) == s
  {
    if |s| > 0 {
      JoinSplit(s[1..]);
      var rest := Split(s[1..]);
      if s[0] != '\n' {
        var lines := Split(s);
        assert lines[1..] == rest[1..];
        if |rest| > 1 {
          assert rest == [rest[0]] + rest[1..];
          calc {
            Join(lines);
            ([s[0]] + rest[0]) + "\n" + Join(rest[1..]);
            [s[0]] + (rest[0] + "\n" + Join(rest[1..]));
            [s[0]] + Join(rest);
          }
        }
      }
      assert s == [s[0]] + s[1..];
    }
  }

  /** A split has exactly one piece more than the text has line feeds. */
  lemma {:induction false} SplitCount(s: string)
    ensures |Split(s)| == multiset(s)['\n'] + 1
  {
    if |s| > 0 {
      SplitCount(s[1..]);
      assert s == [s[0]] + s[1..];
      assert multiset(s) == multiset([s[0]]) + multiset(s[1..]);
    }
  }

  /** A line without a line feed splits into itself. */
  lemma {:induction false} SplitSingleLine(line: string)
    requires '\n' !in line
    ensures Split(line) == [line]
  {
    if |line| > 0 {
      SplitSingleLine(line[1..]);
      assert line == [line[0]] + line[1..];
    }
  }

  /** Splitting distributes over a line feed between two texts. */
  lemma {:induction false} SplitAppend(a: string, b: string)
    ensures Split(a + "\n" + b) == Split(a) + Split(b)
  {
    var s := a + "\n" + b;
    if |a| == 0 {
      assert s[1..] == b;
    } else {
      assert s[1..] == a[1..] + "\n" + b;
      SplitAppend(a[1..], b);
    }
  }

  /** The converse of the round trip in `Split`: pieces without line feeds
      are recovered exactly from their join. */
  lemma {:induction false} SplitJoin(lines: seq<string>)
    requires |lines| >= 1
    requires forall i | 0 <= i < |lines| :: '\n' !in lines[i]
    ensures Split(Join(lines)) == lines
  {
    if |lines| == 1 {
      SplitSingleLine(lines[0]);
    } else {
      SplitAppend(lines[0], Join(lines[1..]));
      SplitSingleLine(lines[0]);
      SplitJoin(lines[1..]);
      assert lines == [lines[0]] + lines[1..];
    }
  }

  /** The filter `line => line.trim()` keeps the lines that are not blank. */
  predicate KeepLine(line: string) {
    !IsBlank(line)
  }

  /** The filter is the source's own test: a line is kept exactly when its
      trimmed form is a truthy (non-empty) string. */
  lemma KeepLineIsTrimTruthy(line: string)
    ensures KeepLine(line) <==> Truthy(Str(Trim(line)))
  {
  }

  /** `lines.filter(line => line.trim())` */
  function NonBlankLines(lines: seq<string>): (kept: seq<string>)
    ensures |kept| <= |lines|
  {
    if |lines| == 0 then []
    else (if KeepLine(lines[0]) then [lines[0]] else []) + NonBlankLines(lines[1..])
  }

  /** The filter keeps exactly the non-blank lines: everything kept is a
      non-blank line of the input, and every non-blank line is kept. */
  lemma {:induction false} NonBlankLinesKeep(lines: seq<string>)
    ensures forall i | 0 <= i < |NonBlankLines(lines)| ::
      !IsBlank(NonBlankLines(lines)[i]) && NonBlankLines(lines)[i] in lines
    ensures forall i | 0 <= i < |lines| :: !IsBlank(lines[i]) ==> lines[i] in NonBlankLines(lines)
  {
    if |lines| > 0 {
      NonBlankLinesKeep(lines[1..]);
      assert forall i | 0 < i < |lines| :: lines[i] == lines[1..][i - 1];
    }
  }

  /** Filtering distributes over concatenation, so the kept lines keep their
      relative order. */
  lemma {:induction false} NonBlankAppend(a: seq<string>, b: seq<string>)
    ensures NonBlankLines(a + b) == NonBlankLines(a) + NonBlankLines(b)
  {
    if |a| > 0 {
      assert (a + b)[1..] == a[1..] + b;
      NonBlankAppend(a[1..], b);
    } else {
      assert a + b == b;
    }
  }

  /** The rich-text runs of a paragraph block, `b.paragraph.rich_text`. */
  function RichText(b: Value): Value {
    Get(Get(b, "paragraph"), "rich_text")
  }

  /** `b` has the shape the converter produces: `object: 'block'`,
      `type: 'paragraph'` and exactly one rich-text run of type `'text'`. */
  predicate IsTextParagraph(b: Value) {
    && Get(b, "object") == Str("block")
    && Get(b, "type") == Str("paragraph")
    && RichText(b).Arr?
    && |RichText(b).items| == 1
    && Get(RichText(b).items[0], "type") == Str("text")
  }

  /** `b` is a text paragraph whose single run holds exactly `line`. */
  predicate IsParagraphOf(b: Value, line: string) {
    && IsTextParagraph(b)
    && Get(Get(RichText(b).items[0], "text"), "content") == Str(line)
  }

  /** The block built for one kept line. */
  function ParagraphBlock(line: string): Value {
    var run := Obj(map["type" := Str("text"), "text" := Obj(map["content" := Str(line)])]);
    Obj(map[
      "object" := Str("block"),
      "type" := Str("paragraph"),
      "paragraph" := Obj(map["rich_text" := Arr([run])])
    ])
  }

  /** A block built from a line is a text paragraph holding that line, so
      different lines give different blocks. */
  lemma ParagraphBlockHolds(line: string)
    ensures IsParagraphOf(ParagraphBlock(line), line)
    ensures forall other: string :: ParagraphBlock(other) == ParagraphBlock(line) ==> other == line
  {
    forall other: string | ParagraphBlock(other) == ParagraphBlock(line)
      ensures other == line
    {
      assert Get(Get(RichText(ParagraphBlock(other)).items[0], "text"), "content") == Str(other);
    }
  }

  /** `.map(line => ({ object: 'block', type: 'paragraph', ... }))` */
  function Paragraphs(lines: seq<string>): (blocks: seq<Value>)
    ensures |blocks| == |lines|
  {
    seq(|lines|, i requires 0 <= i < |lines| => ParagraphBlock(lines[i]))
  }

  /** Every block of a `.map` over lines is a text paragraph. */
  lemma ParagraphsAreTextParagraphs(lines: seq<string>)
    ensures forall i | 0 <= i < |Paragraphs(lines)| :: IsTextParagraph(Paragraphs(lines)[i])
  {
    forall i | 0 <= i < |lines| ensures IsTextParagraph(Paragraphs(lines)[i]) {
      ParagraphBlockHolds(lines[i]);
    }
  }

  /** `parseMarkdownToBlocks(markdown)`: every block it returns is a text
      paragraph, and there are never more blocks than lines. */
  function ParseMarkdownToBlocks(markdown: string): (r: seq<Value>)
    ensures |r| <= |Split(markdown)|
    ensures forall i | 0 <= i < |r| :: IsTextParagraph(r[i])
  {
    var lines := NonBlankLines(Split(markdown));
    ParagraphsAreTextParagraphs(lines);
    Paragraphs(lines)
  }

  /** One paragraph per non-blank line of `markdown.split('\n')`, in the
      original order, each holding the untrimmed line, which is never blank
      and never holds a line feed. */
  lemma ParseLines(markdown: string)
    ensures var lines := NonBlankLines(Split(markdown));
      var blocks := ParseMarkdownToBlocks(markdown);
      && |blocks| == |lines|
      && forall i | 0 <= i < |blocks| ::
           IsParagraphOf(blocks[i], lines[i]) && !IsBlank(lines[i]) && '\n' !in lines[i]
  {
    var lines := NonBlankLines(Split(markdown));
    NonBlankLinesKeep(Split(markdown));
    forall i | 0 <= i < |lines|
      ensures IsParagraphOf(ParseMarkdownToBlocks(markdown)[i], lines[i])
      ensures '\n' !in lines[i]
    {
      ParagraphBlockHolds(lines[i]);
      assert lines[i] in Split(markdown);
    }
  }

  /** Never more blocks than the text has lines. */
  lemma ParseBound(markdown: string)
    ensures |ParseMarkdownToBlocks(markdown)| <= multiset(markdown)['\n'] + 1
  {
    SplitCount(markdown);
  }

  /** The converter distributes over a line feed between two texts. */
  lemma ParseConcat(a: string, b: string)
    ensures ParseMarkdownToBlocks(a + "\n" + b) == ParseMarkdownToBlocks(a) + ParseMarkdownToBlocks(b)
  {
    SplitAppend(a, b);
    NonBlankAppend(Split(a), Split(b));
    var la, lb := NonBlankLines(Split(a)), NonBlankLines(Split(b));
    assert Paragraphs(la + lb) == Paragraphs(la) + Paragraphs(lb);
  }

  /** The blocks one line contributes: its paragraph, or none when blank. */
  function LineBlocks(line: string): seq<Value> {
    if IsBlank(line) then [] else [ParagraphBlock(line)]
  }

  /** A text without a line feed gives one block holding it, or none when
      it is blank. */
  lemma ParseSingleLine(line: string)
    requires '\n' !in line
    ensures ParseMarkdownToBlocks(line) == LineBlocks(line)
  {
    SplitSingleLine(line);
    assert NonBlankLines([line]) == if IsBlank(line) then [] else [line];
  }

  /** Every line of a whitespace-only text is blank. */
  lemma {:induction false} SplitBlank(s: string)
    requires IsBlank(s)
    ensures forall i | 0 <= i < |Split(s)| :: IsBlank(Split(s)[i])
  {
    if |s| > 0 {
      assert IsBlank(s[1..]) by {
        forall i | 0 <= i < |s[1..]| ensures IsWhitespace(s[1..][i]) {
          assert s[1..][i] == s[i + 1];
        }
      }
      SplitBlank(s[1..]);
      var rest := Split(s[1..]);
      if s[0] != '\n' {
        var first := [s[0]] + rest[0];
        assert IsBlank(first) by {
          forall i | 0 <= i < |first| ensures IsWhitespace(first[i]) {
            if i > 0 {
              assert first[i] == rest[0][i - 1];
            }
          }
        }
      }
    }
  }

  /** Lines that are all blank leave nothing. */
  lemma {:induction false} NonBlankOfBlank(lines: seq<string>)
    requires forall i | 0 <= i < |lines| :: IsBlank(lines[i])
    ensures NonBlankLines(lines) == []
  {
    if |lines| > 0 {
      NonBlankOfBlank(lines[1..]);
    }
  }

  /** Every whitespace-only text, the empty one included, yields no blocks. */
  lemma ParseBlank(markdown: string)
    requires IsBlank(markdown)
    ensures ParseMarkdownToBlocks(markdown) == []
  {
    SplitBlank(markdown);
    NonBlankOfBlank(Split(markdown));
  }

  /** One step of a line scan: the text from `start` on is the line up to the
      line feed at `i`, then the rest. */
  lemma ParseStep(markdown: string, start: nat, i: nat)
    requires start <= i < |markdown| && markdown[i] == '\n'
    requires forall k | start <= k < i :: markdown[k] != '\n'
    ensures ParseMarkdownToBlocks(markdown[start..])
         == LineBlocks(markdown[start..i]) + ParseMarkdownToBlocks(markdown[i + 1..])
  {
    var line := markdown[start..i];
    assert '\n' !in line by {
      forall k | 0 <= k < |line| ensures line[k] != '\n' {
        assert line[k] == markdown[start + k];
      }
    }
    assert markdown[start..] == line + "\n" + markdown[i + 1..];
    ParseFirstLine(line, markdown[i + 1..]);
  }

  /** The first line of a text contributes its own blocks, ahead of those
      of the rest. */
  lemma ParseFirstLine(line: string, rest: string)
    requires '\n' !in line
    ensures ParseMarkdownToBlocks(line + "\n" + rest) == LineBlocks(line) + ParseMarkdownToBlocks(rest)
  {
    ParseConcat(line, rest);
    ParseSingleLine(line);
  }

  /** Blank lines in the middle and at the end are dropped and the kept
      lines keep their trailing spaces: `"Hello\n\nWorld  \n   \n"` gives
      the two paragraphs `"Hello"` and `"World  "`. */
  lemma ParseDropsBlankLines(first: string, second: string, blank: string)
    requires '\n' !in first && '\n' !in second && '\n' !in blank
    requires !IsBlank(first) && !IsBlank(second) && IsBlank(blank)
    ensures ParseMarkdownToBlocks(first + "\n" + "\n" + second + "\n" + blank + "\n")
         == [ParagraphBlock(first), ParagraphBlock(second)]
  {
    var tail := blank + "\n" + "";
    var middle := second + "\n" + tail;
    var rest := "" + "\n" + middle;
    assert ParseMarkdownToBlocks(tail) == [] by {
      ParseFirstLine(blank, "");
      ParseBlank("");
    }
    assert ParseMarkdownToBlocks(middle) == [ParagraphBlock(second)] by {
      ParseFirstLine(second, tail);
    }
    assert ParseMarkdownToBlocks(rest) == [ParagraphBlock(second)] by {
      ParseFirstLine("", middle);
    }
    ParseFirstLine(first, rest);
    assert first + "\n" + "\n" + second + "\n" + blank + "\n" == first + "\n" + rest by {
      LineFeedsAssociate(first, second, blank);
    }
  }

  /** The text of `ParseDropsBlankLines`, regrouped line by line. */
  lemma LineFeedsAssociate(first: string, second: string, blank: string)
    ensures first + "\n" + "\n" + second + "\n" + blank + "\n"
         == first + "\n" + ("" + "\n" + (second + "\n" + (blank + "\n" + "")))
  {
  }

  /** Windows line endings: the carriage return stays at the end of the
      block's text. */
  lemma ParseKeepsCarriageReturn(first: string, second: string)
    requires '\n' !in first && '\n' !in second && !IsBlank(first)
    ensures ParseMarkdownToBlocks(first + "\r\n" + second)
         == [ParagraphBlock(first + "\r")] + LineBlocks(second)
  {
    var line := first + "\r";
    assert !IsBlank(line) by {
      var k :| 0 <= k < |first| && !IsWhitespace(first[k]);
      assert line[k] == first[k];
    }
    assert '\n' !in line by {
      assert forall k | 0 <= k < |line| :: line[k] == if k < |first| then first[k] else '\r';
    }
    ParseConcat(line, second);
    ParseSingleLine(line);
    ParseSingleLine(second);
    assert first + "\r\n" + second == line + "\n" + second;
  }

  /** The blocks a scan has emitted before `start`, followed by those of the
      rest of the text, are the blocks of the whole text. */
  ghost predicate ScanInvariant(markdown: string, start: nat, blocks: seq<Value>) {
    start <= |markdown| && ParseMarkdownToBlocks(markdown) == blocks + ParseMarkdownToBlocks(markdown[start..])
  }

  /** Closing the line that ends at the line feed at `i` keeps the scan
      invariant. */
  lemma ScanLineFeed(markdown: string, start: nat, i: nat, blocks: seq<Value>)
    requires ScanInvariant(markdown, start, blocks)
    requires start <= i < |markdown| && markdown[i] == '\n'
    requires forall k | start <= k < i :: markdown[k] != '\n'
    ensures ScanInvariant(markdown, i + 1, blocks + LineBlocks(markdown[start..i]))
  {
    ParseStep(markdown, start, i);
  }

  /** At the end of the text the last line completes the blocks. */
  lemma ScanEnd(markdown: string, start: nat, blocks: seq<Value>)
    requires ScanInvariant(markdown, start, blocks)
    requires forall k | start <= k < |markdown| :: markdown[k] != '\n'
    ensures ParseMarkdownToBlocks(markdown) == blocks + LineBlocks(markdown[start..])
  {
    var last := markdown[start..];
    assert '\n' !in last by {
      forall k | 0 <= k < |last| ensures last[k] != '\n' {
        assert last[k] == markdown[start + k];
      }
    }
    ParseSingleLine(last);
  }

  /** A single left-to-right scan that emits a block at every line feed
      produces the same blocks as split, filter and map. */
  method ConvertMarkdown(markdown: string) returns (blocks: seq<Value>)
    ensures blocks == ParseMarkdownToBlocks(markdown)
  {
    blocks := [];
    var start, i := 0, 0;
    assert markdown[0..] == markdown;
    while i < |markdown|
      invariant 0 <= start <= i <= |markdown|
      invariant forall k | start <= k < i :: markdown[k] != '\n'
      invariant ScanInvariant(markdown, start, blocks)
    {
      if markdown[i] == '\n' {
        ScanLineFeed(markdown, start, i, blocks);
        blocks := blocks + LineBlocks(markdown[start..i]);
        start := i + 1;
      }
      i := i + 1;
    }
    ScanEnd(markdown, start, blocks);
    blocks := blocks + LineBlocks(markdown[start..]);
  }
}

=== FILE: requests.dfy ===
/** What the server asks of the remote workspace client, and how each
    operation shapes its request from the caller's arguments. The arguments
    are read through the type casts of the source and never validated: a
    property the caller left out is `None` here and reaches the client as
    `undefined`. */
module Requests {
  import opened Wrappers
  import opened JsValues
  import Markdown

  /** One call on the remote client, with the JavaScript values it is given. */
  datatype Request =
    | Search(body: Value)                                              // search
    | DatabasesCreate(parent: Value, title: Value, properties: Value)  // databases.create
    | PagesCreate(parent: Value, properties: Value, children: Value)   // pages.create
    | PagesUpdate(pageId: Value, properties: Value)                    // pages.update
    | PagesRetrieve(pageId: Value)                                     // pages.retrieve
    | BlocksChildrenAppend(blockId: Value, children: Value)            // blocks.children.append
    | BlocksDelete(blockId: Value)                                     // blocks.delete

  /** Arguments of create_database (`CreateDatabaseParams`). */
  datatype CreateDatabaseArgs = CreateDatabaseArgs(
    parentId: Option<string>,
    title: Option<string>,
    properties: Option<map<string, Value>>)

  /** Arguments of create_page (`CreatePageParams`). `parentType` is any
      string: the declared `"database" | "page"` is not checked. */
  datatype CreatePageArgs = CreatePageArgs(
    parentType: Option<string>,
    parentId: Option<string>,
    title: Option<string>,
    properties: Option<map<string, Value>>,
    content: Option<string>)

  /** Arguments of update_page (`UpdatePageParams`). */
  datatype UpdatePageArgs = UpdatePageArgs(pageId: Option<string>, properties: Option<map<string, Value>>)

  /** Arguments of append_blocks (`AppendBlocksParams`). */
  datatype AppendBlocksArgs = AppendBlocksArgs(pageId: Option<string>, blocks: Option<seq<Value>>)

  /** list_databases: a search restricted to objects of type database. */
  function ListDatabasesRequest(): (r: Request)
    ensures r.Search? && r.body.Obj? && r.body.fields.Keys == {"filter"}
    ensures Get(r.body, "filter") == Obj(map["property" := Str("object"), "value" := Str("database")])
  {
    Search(Obj(map["filter" := Obj(map["property" := Str("object"), "value" := Str("database")])]))
  }

  /** A rich-text run `{ type: "text", text: { content } }`. */
  function TextRun(content: Value): Value {
    Obj(map["type" := Str("text"), "text" := Obj(map["content" := content])])
  }

  /** The content a rich-text run holds, `run.text.content`. */
  function RunContent(run: Value): Value {
    Get(Get(run, "text"), "content")
  }

  /** create_database: always under a page parent, the title becomes a single
      text run holding `title` as given, and `properties` are sent unchanged.
      Nothing of the arguments is lost. */
  function CreateDatabaseRequest(a: CreateDatabaseArgs): (r: Request)
    ensures r.DatabasesCreate?
    ensures r.parent.Obj? && r.parent.fields.Keys == {"page_id"}
    ensures CarriesString(Get(r.parent, "page_id"), a.parentId)
    ensures r.title.Arr? && |r.title.items| == 1 && Get(r.title.items[0], "type") == Str("text")
    ensures r.title.items[0].Obj? && r.title.items[0].fields.Keys == {"type", "text"}
    ensures Get(r.title.items[0], "text").Obj? && Get(r.title.items[0], "text").fields.Keys == {"content"}
    ensures CarriesString(RunContent(r.title.items[0]), a.title)
    ensures CarriesObject(r.properties, a.properties)
  {
    DatabasesCreate(
      Obj(map["page_id" := OfString(a.parentId)]),
      Arr([TextRun(OfString(a.title))]),
      OfObject(a.properties))
  }

  /** `parent_type === "database" ? { database_id } : { page_id }`: a
      database reference exactly for the literal "database", a page
      reference for every other value, the id forwarded either way. */
  function PageParent(parentType: Option<string>, parentId: Option<string>): (r: Value)
    ensures r.Obj? && |r.fields| == 1
    ensures "database_id" in r.fields <==> parentType == Some("database")
    ensures "page_id" in r.fields <==> parentType != Some("database")
    ensures forall key | key in r.fields :: CarriesString(r.fields[key], parentId)
  {
    if OfString(parentType) == Str("database") then
      Obj(map["database_id" := OfString(parentId)])
    else
      Obj(map["page_id" := OfString(parentId)])
  }

  /** The property object synthesized from a title:
      `{ title: { title: [{ text: { content: title } }] } }`. */
  function TitleProperty(title: Value): Value {
    Obj(map["title" := Obj(map["title" := Arr([Obj(map["text" := Obj(map["content" := title])])])])])
  }

  /** `properties || (title ? TitleProperty(title) : {})`: supplied
      properties win and are sent verbatim; otherwise a non-empty title gives
      the single title property; otherwise, the empty title included, `{}`. */
  function PageProperties(title: Option<string>, properties: Option<map<string, Value>>): (r: Value)
    ensures properties.Some? ==> r == Obj(properties.value)
    ensures properties.None? && title.Some? && title.value != "" ==> r == TitleProperty(Str(title.value))
    ensures properties.None? && (title.None? || title.value == "") ==> r == Obj(map[])
  {
    Or(OfObject(properties), Cond(OfString(title), TitleProperty(OfString(title)), Obj(map[])))
  }

  /** `content ? parseMarkdownToBlocks(content) : []`: the converter's blocks
      for the content, a missing content counting as the empty text. */
  function PageChildren(content: Option<string>): (r: Value)
    ensures r == Arr(Markdown.ParseMarkdownToBlocks(content.GetOr("")))
  {
    Markdown.ParseBlank("");
    if Truthy(OfString(content)) then Arr(Markdown.ParseMarkdownToBlocks(content.value)) else Arr([])
  }

  /** create_page: parent, properties and children shaped from the
      arguments, as `PageParent`, `PageProperties` and `PageChildren` state. */
  function CreatePageRequest(a: CreatePageArgs): (r: Request)
    ensures r.PagesCreate?
    ensures r.parent.Obj? && |r.parent.fields| == 1
    ensures "database_id" in r.parent.fields <==> a.parentType == Some("database")
    ensures "page_id" in r.parent.fields <==> a.parentType != Some("database")
    ensures forall key | key in r.parent.fields :: CarriesString(r.parent.fields[key], a.parentId)
    ensures a.properties.Some? ==> r.properties == Obj(a.properties.value)
    ensures a.properties.None? && a.title.Some? && a.title.value != "" ==> r.properties == TitleProperty(Str(a.title.value))
    ensures a.properties.None? && (a.title.None? || a.title.value == "") ==> r.properties == Obj(map[])
    ensures r.children == Arr(Markdown.ParseMarkdownToBlocks(a.content.GetOr("")))
  {
    PagesCreate(
      PageParent(a.parentType, a.parentId),
      PageProperties(a.title, a.properties),
      PageChildren(a.content))
  }

  /** update_page: the page id and the properties are forwarded unchanged. */
  function UpdatePageRequest(a: UpdatePageArgs): (r: Request)
    ensures r.PagesUpdate?
    ensures CarriesString(r.pageId, a.pageId) && CarriesObject(r.properties, a.properties)
  {
    PagesUpdate(OfString(a.pageId), OfObject(a.properties))
  }

  /** get_page: the page id is forwarded unchanged. */
  function GetPageRequest(pageId: Option<string>): (r: Request)
    ensures r.PagesRetrieve? && CarriesString(r.pageId, pageId)
  {
    PagesRetrieve(OfString(pageId))
  }

  /** append_blocks: the page is the block appended to, and the blocks are
      forwarded unchanged, the empty list included. */
  function AppendBlocksRequest(a: AppendBlocksArgs): (r: Request)
    ensures r.BlocksChildrenAppend?
    ensures CarriesString(r.blockId, a.pageId) && CarriesArray(r.children, a.blocks)
  {
    BlocksChildrenAppend(OfString(a.pageId), OfArray(a.blocks))
  }

  /** delete_blocks: exactly the block id is sent. */
  function DeleteBlockRequest(blockId: Option<string>): (r: Request)
    ensures r.BlocksDelete? && CarriesString(r.blockId, blockId)
  {
    BlocksDelete(OfString(blockId))
  }

  /** With properties supplied, the title has no effect on the request. */
  lemma TitleIgnoredWithProperties(a: CreatePageArgs, title: Option<string>)
    requires a.properties.Some?
    ensures CreatePageRequest(a.(title := title)) == CreatePageRequest(a)
  {
  }

  /** An empty title is treated as no title at all. */
  lemma EmptyTitleIsNoTitle(a: CreatePageArgs)
    ensures CreatePageRequest(a.(title := Some(""))) == CreatePageRequest(a.(title := None))
  {
  }

  /** Empty content is treated as no content, and a blank content gives no
      children either. */
  lemma BlankContentGivesNoChildren(a: CreatePageArgs)
    requires a.content.None? || Markdown.IsBlank(a.content.value)
    ensures CreatePageRequest(a).children == Arr([])
  {
    if a.content.Some? {
      Markdown.ParseBlank(a.content.value);
    }
  }

  /** A page under a page with a title and nothing else: a page reference,
      the single synthesized title property, and no children. */
  lemma CreatePageWithTitleOnly(parentId: string, title: string)
    requires title != ""
    ensures CreatePageRequest(CreatePageArgs(Some("page"), Some(parentId), Some(title), None, None))
         == PagesCreate(Obj(map["page_id" := Str(parentId)]), TitleProperty(Str(title)), Arr([]))
  {
  }
}

=== FILE: server.dfy ===
/** The tool server: the catalog of tools it advertises, and the dispatcher
    of tool calls, which routes a call by its exact name to one handler and
    turns every exception into an "Operation failed: " error. */
module Server {
  import opened Wrappers
  import opened JsValues
  import opened Requests
  import opened Handlers

  /** The tools the dispatcher has a case for. */
  datatype Tool =
    | ListDatabasesTool
    | CreateDatabaseTool
    | CreatePageTool
    | UpdatePageTool
    | AppendBlocksTool
    | DeleteBlocksTool

  /** The name a tool is called by. */
  function ToolName(t: Tool): string {
    match t
    case ListDatabasesTool => "list_databases"
    case CreateDatabaseTool => "create_database"
    case CreatePageTool => "create_page"
    case UpdatePageTool => "update_page"
    case AppendBlocksTool => "append_blocks"
    case DeleteBlocksTool => "delete_blocks"
  }

  /** The `switch` on the tool name: exact string match, no other name is
      recognised. */
  function ParseTool(name: string): (r: Option<Tool>)
    ensures r.Some? ==> ToolName(r.value) == name
    ensures r.None? ==> forall t: Tool :: ToolName(t) != name
  {
    if name == "list_databases" then Some(ListDatabasesTool)
    else if name == "create_database" then Some(CreateDatabaseTool)
    else if name == "create_page" then Some(CreatePageTool)
    else if name == "update_page" then Some(UpdatePageTool)
    else if name == "append_blocks" then Some(AppendBlocksTool)
    else if name == "delete_blocks" then Some(DeleteBlocksTool)
    else None
  }

  /** Every tool is found again by its name. */
  lemma ParseToolName(t: Tool)
    ensures ParseTool(ToolName(t)) == Some(t)
  {
  }

  /** The `arguments` of a tool call as the cases read them through their
      type casts: `None` for a property the caller left out. */
  datatype Arguments = Arguments(
    parentType: Option<string>,
    parentId: Option<string>,
    title: Option<string>,
    properties: Option<map<string, Value>>,
    content: Option<string>,
    pageId: Option<string>,
    blocks: Option<seq<Value>>,
    blockId: Option<string>)

  /** The destructuring each case performs. */
  function CreateDatabaseArgsOf(a: Arguments): CreateDatabaseArgs {
    CreateDatabaseArgs(a.parentId, a.title, a.properties)
  }

  function CreatePageArgsOf(a: Arguments): CreatePageArgs {
    CreatePageArgs(a.parentType, a.parentId, a.title, a.properties, a.content)
  }

  function UpdatePageArgsOf(a: Arguments): UpdatePageArgs {
    UpdatePageArgs(a.pageId, a.properties)
  }

  function AppendBlocksArgsOf(a: Arguments): AppendBlocksArgs {
    AppendBlocksArgs(a.pageId, a.blocks)
  }

  /** The tool whose case makes a call of this kind; none makes
      `pages.retrieve`. */
  function CallerOf(q: Request): Option<Tool> {
    match q
    case Search(_) => Some(ListDatabasesTool)
    case DatabasesCreate(_, _, _) => Some(CreateDatabaseTool)
    case PagesCreate(_, _, _) => Some(CreatePageTool)
    case PagesUpdate(_, _) => Some(UpdatePageTool)
    case PagesRetrieve(_) => None
    case BlocksChildrenAppend(_, _) => Some(AppendBlocksTool)
    case BlocksDelete(_) => Some(DeleteBlocksTool)
  }

  /** The one remote call each tool makes: every case calls a different
      client method, and none of them `pages.retrieve`. */
  function RequestFor(t: Tool, a: Arguments): (r: Request)
    ensures CallerOf(r) == Some(t)  // so never `pages.retrieve`, which has no caller
  {
    match t
    case ListDatabasesTool => ListDatabasesRequest()
    case CreateDatabaseTool => CreateDatabaseRequest(CreateDatabaseArgsOf(a))
    case CreatePageTool => CreatePageRequest(CreatePageArgsOf(a))
    case UpdatePageTool => UpdatePageRequest(UpdatePageArgsOf(a))
    case AppendBlocksTool => AppendBlocksRequest(AppendBlocksArgsOf(a))
    case DeleteBlocksTool => DeleteBlockRequest(a.blockId)
  }

  /** The body of one `case`: it awaits exactly the call `RequestFor`
      names, succeeds exactly when that call does with one text item, and
      lets the call's exception through unchanged. */
  function Handle(t: Tool, a: Arguments, remote: Request -> Outcome, stringify: Value -> string): (r: Result<Response, Thrown>)
    ensures var o := remote(RequestFor(t, a));
      && (r.Success? <==> o.Ok?)
      && (r.Success? ==> |r.value.content| == 1 && r.value.content[0].kind == "text")
      && (!o.Ok? ==> r.error == Rejection(o))
  {
    match t
    case ListDatabasesTool => ListDatabases(remote, stringify)
    case CreateDatabaseTool => CreateDatabase(CreateDatabaseArgsOf(a), remote)
    case CreatePageTool => CreatePage(CreatePageArgsOf(a), remote)
    case UpdatePageTool => UpdatePage(UpdatePageArgsOf(a), remote)
    case AppendBlocksTool => AppendBlocks(AppendBlocksArgsOf(a), remote)
    case DeleteBlocksTool => DeleteBlock(a.blockId, remote)
  }

  const OperationFailed := "Operation failed: "
  const UnknownTool := "Unknown tool"
  const UnknownError := "An unknown error occurred"

  /** The `catch` block: an `Error` keeps its message behind the prefix,
      anything else becomes the generic unknown-error message. */
  function WrapError(e: Thrown): (msg: string)
    ensures |OperationFailed| <= |msg| && msg[..|OperationFailed|] == OperationFailed
    ensures e.Error? ==> msg[|OperationFailed|..] == e.message
    ensures e.NonErrorValue? ==> msg[|OperationFailed|..] == UnknownError
  {
    match e
    case Error(m) => OperationFailed + m
    case NonErrorValue => OperationFailed + UnknownError
  }

  /** The `CallToolRequestSchema` handler. An unknown name throws "Unknown
      tool" inside the `try`, so it is wrapped like every other error; a
      known name makes exactly its one remote call; a remote `Error` with
      message m gives "Operation failed: " + m, any other thrown value the
      generic unknown-error message; a success is one text item. */
  function Dispatch(name: string, args: Arguments, remote: Request -> Outcome, stringify: Value -> string): (r: Result<Response, string>)
    ensures ParseTool(name).None? ==> r == Failure(OperationFailed + UnknownTool)
    ensures ParseTool(name).Some? ==>
      var o := remote(RequestFor(ParseTool(name).value, args));
      && (r.Success? <==> o.Ok?)
      && (o.ErrMsg? ==> r == Failure(OperationFailed + o.message))
      && (o.NonError? ==> r == Failure(OperationFailed + UnknownError))
    ensures r.Failure? ==> |OperationFailed| <= |r.error| && r.error[..|OperationFailed|] == OperationFailed
    ensures r.Success? ==> |r.value.content| == 1 && r.value.content[0].kind == "text"
  {
    var outcome := match ParseTool(name)
      case None => Failure(Error(UnknownTool))
      case Some(t) => Handle(t, args, remote, stringify);
    match outcome
    case Success(response) => Success(response)
    case Failure(e) => Failure(WrapError(e))
  }

  /** An unknown tool makes no remote call: the result is the same whatever
      the arguments and whatever the client would answer. */
  lemma UnknownToolMakesNoCall(name: string, a1: Arguments, a2: Arguments,
                               remote1: Request -> Outcome, remote2: Request -> Outcome,
                               stringify1: Value -> string, stringify2: Value -> string)
    requires ParseTool(name).None?
    ensures Dispatch(name, a1, remote1, stringify1) == Dispatch(name, a2, remote2, stringify2)
  {
  }

  /** A known tool makes exactly one remote call, the one `RequestFor`
      shapes: two clients that answer that request alike give the same
      result. */
  lemma DispatchDependsOnlyOnItsRequest(t: Tool, a: Arguments,
                                        remote1: Request -> Outcome, remote2: Request -> Outcome,
                                        stringify: Value -> string)
    requires remote1(RequestFor(t, a)) == remote2(RequestFor(t, a))
    ensures Dispatch(ToolName(t), a, remote1, stringify) == Dispatch(ToolName(t), a, remote2, stringify)
  {
    ParseToolName(t);
  }

  /** list_databases answers with the serialized search results. */
  lemma DispatchListDatabases(a: Arguments, remote: Request -> Outcome, stringify: Value -> string)
    requires remote(ListDatabasesRequest()).Ok?
    ensures Dispatch("list_databases", a, remote, stringify)
         == Success(TextResponse(stringify(Get(remote(ListDatabasesRequest()).body, "results"))))
  {
  }

  /** create_database answers with the new database's id. */
  lemma DispatchCreateDatabase(a: Arguments, remote: Request -> Outcome, stringify: Value -> string)
    requires remote(CreateDatabaseRequest(CreateDatabaseArgsOf(a))).Ok?
    ensures Dispatch("create_database", a, remote, stringify)
         == Success(TextResponse("Created database: " + remote(CreateDatabaseRequest(CreateDatabaseArgsOf(a))).id))
  {
  }

  /** create_page answers with the new page's id. */
  lemma DispatchCreatePage(a: Arguments, remote: Request -> Outcome, stringify: Value -> string)
    requires remote(CreatePageRequest(CreatePageArgsOf(a))).Ok?
    ensures Dispatch("create_page", a, remote, stringify)
         == Success(TextResponse("Created page: " + remote(CreatePageRequest(CreatePageArgsOf(a))).id))
  {
  }

  /** update_page answers with the updated page's id. */
  lemma DispatchUpdatePage(a: Arguments, remote: Request -> Outcome, stringify: Value -> string)
    requires remote(UpdatePageRequest(UpdatePageArgsOf(a))).Ok?
    ensures Dispatch("update_page", a, remote, stringify)
         == Success(TextResponse("Updated page: " + remote(UpdatePageRequest(UpdatePageArgsOf(a))).id))
  {
  }

  /** append_blocks sends the blocks as given, an empty list included, and
      answers with the page id from the arguments. */
  lemma DispatchAppendBlocks(pageId: string, blocks: seq<Value>, a: Arguments,
                             remote: Request -> Outcome, stringify: Value -> string)
    requires a.pageId == Some(pageId) && a.blocks == Some(blocks)
    requires remote(BlocksChildrenAppend(Str(pageId), Arr(blocks))).Ok?
    ensures RequestFor(AppendBlocksTool, a) == BlocksChildrenAppend(Str(pageId), Arr(blocks))
    ensures Dispatch("append_blocks", a, remote, stringify)
         == Success(TextResponse("Appended blocks to page: " + pageId))
  {
  }

  /** delete_blocks sends exactly the block id and answers with it. */
  lemma DispatchDeleteBlocks(blockId: string, a: Arguments, remote: Request -> Outcome, stringify: Value -> string)
    requires a.blockId == Some(blockId)
    requires remote(BlocksDelete(Str(blockId))).Ok?
    ensures RequestFor(DeleteBlocksTool, a) == BlocksDelete(Str(blockId))
    ensures Dispatch("delete_blocks", a, remote, stringify) == Success(TextResponse("Deleted block: " + blockId))
  {
  }

  /** get_page has a handler but no case in the dispatcher, so a call by
      that name is an unknown tool. */
  lemma GetPageIsUnknownTool(a: Arguments, remote: Request -> Outcome, stringify: Value -> string)
    ensures Dispatch("get_page", a, remote, stringify) == Failure("Operation failed: Unknown tool")
  {
    assert ParseTool("get_page").None?;
    assert OperationFailed + UnknownTool == "Operation failed: Unknown tool";
  }

  /** The unknown-tool error is the same text as a remote failure whose
      message is "Unknown tool", and a thrown non-`Error` reads the same as
      an `Error` whose message is the generic phrase. */
  lemma EnvelopeAmbiguities(t: Tool, name: string, a: Arguments, stringify: Value -> string)
    requires ParseTool(name).None?
    ensures Dispatch(name, a, _ => ErrMsg(UnknownTool), stringify)
         == Dispatch(ToolName(t), a, _ => ErrMsg(UnknownTool), stringify)
    ensures Dispatch(ToolName(t), a, _ => NonError, stringify)
         == Dispatch(ToolName(t), a, _ => ErrMsg(UnknownError), stringify)
  {
    ParseToolName(t);
  }

  /** One input property a tool advertises. */
  datatype Field = Field(name: string, kind: string, description: string, choices: seq<string>)

  /** One entry of the tool catalog: name, description and input schema. */
  datatype ToolDescriptor = ToolDescriptor(name: string, description: string, fields: seq<Field>, required: seq<string>)

  /** The catalog returned by `ListToolsRequestSchema`. */
  const Catalog: seq<ToolDescriptor> := [
    ToolDescriptor("list_databases", "List all accessible databases", [], []),
    ToolDescriptor("create_database", "Create a new database", [
        Field("parent_id", "string", "ID of the parent page", []),
        Field("title", "string", "Title of the database", []),
        Field("properties", "object", "Database properties schema", [])
      ], ["parent_id", "title", "properties"]),
    ToolDescriptor("create_page", "Create a new page", [
        Field("parent_type", "string", "Type of parent (database or page)", ["database", "page"]),
        Field("parent_id", "string", "ID of the parent page or database", []),
        Field("title", "string", "Title of the page", []),
        Field("properties", "object", "Page properties (required for database pages)", []),
        Field("content", "string", "Content in markdown format", [])
      ], ["parent_type", "parent_id"]),
    ToolDescriptor("update_page", "Update an existing page", [
        Field("page_id", "string", "ID of the page to update", []),
        Field("properties", "object", "Updated page properties", [])
      ], ["page_id", "properties"]),
    ToolDescriptor("append_blocks", "Append blocks to a page", [
        Field("page_id", "string", "ID of the page", []),
        Field("blocks", "array", "Array of block objects to append", [])
      ], ["page_id", "blocks"]),
    ToolDescriptor("delete_blocks", "Delete blocks from a page", [
        Field("block_id", "string", "ID of the block to delete", [])
      ], ["block_id"])
  ]

  /** Where a tool sits in the catalog. */
  function CatalogIndex(t: Tool): nat {
    match t
    case ListDatabasesTool => 0
    case CreateDatabaseTool => 1
    case CreatePageTool => 2
    case UpdatePageTool => 3
    case AppendBlocksTool => 4
    case DeleteBlocksTool => 5
  }

  /** No two catalog entries share a name. */
  lemma CatalogNamesDistinct()
    ensures forall i, j | 0 <= i < j < |Catalog| :: Catalog[i].name != Catalog[j].name
  {
  }

  /** The catalog and the dispatcher agree: every advertised name has a
      case, and every case is advertised. */
  lemma CatalogMatchesDispatch()
    ensures forall i | 0 <= i < |Catalog| :: ParseTool(Catalog[i].name).Some?
    ensures forall t: Tool :: CatalogIndex(t) < |Catalog| && Catalog[CatalogIndex(t)].name == ToolName(t)
  {
  }

  /** The names of the properties a schema declares. */
  function FieldNames(fields: seq<Field>): seq<string> {
    seq(|fields|, i requires 0 <= i < |fields| => fields[i].name)
  }

  /** Every property a tool lists as required is one its schema declares. */
  predicate RequiredDeclared(d: ToolDescriptor) {
    forall k | 0 <= k < |d.required| :: d.required[k] in FieldNames(d.fields)
  }

  /** Every catalog entry declares the properties it requires. */
  lemma CatalogRequiredDeclared()
    ensures forall i | 0 <= i < |Catalog| :: RequiredDeclared(Catalog[i])
  {
    assert RequiredDeclared(Catalog[0]);
    assert RequiredDeclared(Catalog[1]) by {
      assert FieldNames(Catalog[1].fields) == ["parent_id", "title", "properties"];
    }
    assert RequiredDeclared(Catalog[2]) by {
      assert FieldNames(Catalog[2].fields)[..2] == ["parent_type", "parent_id"];
    }
    assert RequiredDeclared(Catalog[3]) by {
      assert FieldNames(Catalog[3].fields) == ["page_id", "properties"];
    }
    assert RequiredDeclared(Catalog[4]) by {
      assert FieldNames(Catalog[4].fields) == ["page_id", "blocks"];
    }
    assert RequiredDeclared(Catalog[5]) by {
      assert FieldNames(Catalog[5].fields) == ["block_id"];
    }
  }
}

=== FILE: wrappers.dfy ===
/** Option and Result, the two failure-carrying datatypes the model uses in
    place of JavaScript's `undefined` and thrown exceptions. */
module Wrappers {

  /** A value that may be absent (a property the caller left out). */
  datatype Option<+T> = None | Some(value: T) {

    /** The value, or `default` when absent. */
    function GetOr(default: T): T {
      match this
      case Some(v) => v
      case None => default
    }
  }

  /** Either a value or an error. */
  datatype Result<+R, +E> = Success(value: R) | Failure(error: E)
}
